=== FILE: README.md ===
# LS-8 emulator core, modelled in Dafny

This project models the core of `ls8/cpu.py`, a small Python emulator for
the LS-8 teaching computer. The model covers two parts.

- **The machine.** It has 256 memory cells and 8 registers, with register 7
  used as the stack pointer. It also has a program counter and a running
  flag. The fetch-decode-execute loop recognises six instructions: HLT,
  LDI, PRN, MUL, PUSH and POP.
- **The pure part of the program loader.** It cuts each line at `#`,
  strips whitespace, skips blank lines and parses base-2 numerals. It then
  copies the program into memory from address 0.

The model is functional:

- The state is an immutable `Machine` value.
- One iteration of `while self.running` is the total function `Cpu.Step`.
- The loop itself is `Cpu.Run`, bounded by fuel. It is `Cpu.Loop`, the
  fuel-bounded loop over any one-iteration function, applied to `Step`.
- `Cpu.RunStart` sets the running flag, as `run_start` does. `Run` takes
  a machine that is already loaded. Started with `RunStart` it executes
  the program (`CpuProperties.Print8`); a machine that was never started
  stops at once (`CpuProperties.NotStartedStops`).

Modules, one per concern:

- `Results` (results.dfy): `Option` and a failure-compatible `Result`.
- `PyList` (pylist.dfy): Python list subscripting, including negative
  indices. Every access whose index depends on the data goes through it:
  pc, the operands, and the stack pointer's value used as an address. The
  stack pointer register itself (the fixed index 7) and the loader's
  address counter, which runs from 0 to at most 256, are always valid
  subscripts and are indexed directly.
- `State` (state.dfy): the machine state, `Init`, `ram_read`/`ram_write`,
  register access and the opcode table.
- `Cpu` (cpu.dfy): the six handlers, `Step`, `Loop` and `Run`.
- `CpuProperties` (cpu_properties.dfy): lemmas about single instructions
  and whole runs.
- `Loader` (loader.dfy) and `LoaderProperties` (loader_properties.dfy): the
  line parser, placement in memory, and their properties.

Modelling decisions that follow the code:

- **Unbounded values.** Cells and registers hold Python integers, and
  nothing truncates them to 8 bits. They are `int`, and MUL is the
  unbounded product.
- **Negative subscripts.** Every access is a raw Python subscript. An
  index in `[-n, n)` is valid, and a negative index counts from the end.
  The stack pointer register starts at 0, like every other register. So
  the first PUSH moves it to -1 and stores into cell 255
  (`CpuProperties.FirstPushWrapsToTop`). Any other index raises
  IndexError. That exception is uncaught, so a step that raises it yields
  a `Fault` and no successor state.
- **Unknown commands.** A fetched command that matches none of the six
  opcodes runs no handler. The state is unchanged, and the loop spins on
  it forever (`CpuProperties.UnknownOpcodeSpins`), also when a run only
  reaches it after some steps (`CpuProperties.ReachedUnknownSpins`).
- **Output.** `print(self.register)` in PRN and MUL is recorded as a
  `RegisterDump` event. For MUL the dump happens before the multiplication
  and before any fault.
- **Evaluation order.** Operands are read in Python's evaluation order.
  For LDI, the right-hand side `ram[pc+2]` is read before the target
  subscript `ram[pc+1]`.
- **Six instructions.** The code has no compare, flag or jump
  instructions, so the model has none either.

## Model

| member | source | states |
|---|---|---|
| PyList.Resolve | ls8/cpu.py:124-125 | a subscript is valid iff `-n <= i < n`; it then denotes the cell congruent to `i` modulo `n`, and `i` itself when non-negative |
| PyList.Get | ls8/cpu.py:124-125 | a list read gives `xs[i]` for a non-negative index and `xs[n+i]` for a negative one; it fails exactly outside `[-n, n)` |
| PyList.Set | ls8/cpu.py:127-129 | a list store keeps the length; a read of the same subscript then gives the stored value; every cell the subscript does not alias reads as before |
| State.Init | ls8/cpu.py:11-17 | a new CPU has all 256 cells and all 8 registers at 0 (so the stack pointer register is 0), pc 0, not running |
| State.RamRead | ls8/cpu.py:124-125 | `ram_read` succeeds iff the address is in `[-256, 256)` and returns the denoted cell; otherwise an IndexError on that address; it has no effect on the state |
| State.RamWrite | ls8/cpu.py:127-129 | `ram_write(a, v)` succeeds iff `a` is in range; then `ram_read(a)` gives `v` and every cell not aliased by `a` is unchanged |
| State.RegRead | ls8/cpu.py:157 | reading `register[i]` succeeds iff `i` is in `[-8, 8)` and returns the denoted register |
| State.RegWrite | ls8/cpu.py:142 | storing into `register[i]` succeeds iff `i` is in range; the denoted register reads back the value and no other register changes |
| State.Decode | ls8/cpu.py:18-23 | a command decodes to an instruction exactly when it equals one of the six opcode constants, and that instruction's opcode is the command |
| State.DecodeOpcode | ls8/cpu.py:18-23 | the six opcode constants are distinct, so each decodes back to its own instruction |
| Cpu.RunStart | ls8/cpu.py:131-133 | `run_start` sets the running flag and changes nothing else |
| Cpu.RunHlt | ls8/cpu.py:135-139 | `run_HLT` clears the running flag and sets pc to 0, and changes nothing else |
| Cpu.RunLdi | ls8/cpu.py:141-143 | LDI succeeds iff both operand cells and the target register exist; it then sets the target register to the immediate and advances pc by 3; memory, other registers and the running flag are unchanged |
| Cpu.RunPrn | ls8/cpu.py:145-147 | `run_PRN` cannot fault: it advances pc by 2 and changes nothing else |
| Cpu.RunMul | ls8/cpu.py:149-153 | MUL succeeds iff both operand cells and both named registers exist; it then replaces register a by the unbounded product of registers a and b and advances pc by 3; nothing else changes |
| Cpu.RunPush | ls8/cpu.py:155-160 | PUSH succeeds iff the operand cell, the named register and the cell below the stack pointer exist; it stores the register's value as read before the stack pointer moves, decrements register 7 by one, and advances pc by 2; no other cell or register changes |
| Cpu.RunPop | ls8/cpu.py:162-167 | POP succeeds iff the operand cell, the cell at the stack pointer and the named register exist; it copies that cell into the register, then increments register 7 and advances pc by 2; memory is unchanged |
| Cpu.Step | ls8/cpu.py:102-122 | a pc outside `[-256, 256)` makes the fetch raise IndexError on pc, with no output; a command outside the opcode table leaves the state unchanged with no output; only HLT changes the running flag, and a running machine it stops has pc 0; only PRN and MUL print, and they print the registers as they were before the step |
| CpuProperties.StepFaults | ls8/cpu.py:102-122 | a step faults exactly when the fetch is out of range, or the fetched command is LDI, MUL, PUSH or POP and that handler faults; HLT, PRN and unknown commands never fault |
| Cpu.Loop | ls8/cpu.py:102-103 | the `while self.running` loop, for any one-iteration function, ends halted only with the running flag false, and is cut off only while still running |
| Cpu.LoopHaltsAtZero | ls8/cpu.py:102-106 | if every iteration that stops a running machine rewinds pc, a run that started and then halted ends with pc 0 |
| Cpu.Run | ls8/cpu.py:102-122 | the loop ends only with the running flag false, and a run that started running ends with pc 0; a run that is cut off is still running |
| CpuProperties.HltEndsRun | ls8/cpu.py:135-139 | HLT clears running and sets pc to 0 and nothing else; the loop then exits for any remaining fuel |
| CpuProperties.LdiStep | ls8/cpu.py:109-110 | a fetched LDI runs `run_LDI` and prints nothing, whether its operands are valid or not |
| CpuProperties.LdiLoads | ls8/cpu.py:141-143 | the fetched LDI with valid operands is one step that sets the target register to the immediate, moves pc by 3 and prints nothing |
| CpuProperties.PrnStep | ls8/cpu.py:145-147 | PRN never faults; it prints the registers and changes only pc, by 2; registers, memory and running are untouched |
| CpuProperties.MulSquares | ls8/cpu.py:149-153 | MUL with both operands naming the same register squares it, without truncation |
| CpuProperties.FirstPushWrapsToTop | ls8/cpu.py:155-159 | with the stack pointer register at its initial 0, PUSH moves it to -1 and stores the value into cell 255 |
| CpuProperties.MulStep | ls8/cpu.py:115-116 | a fetched MUL runs `run_MUL` and prints the registers as they were before it, also when it then faults |
| CpuProperties.PushStep | ls8/cpu.py:118-119 | a fetched PUSH runs `run_PUSH` and prints nothing |
| CpuProperties.PopStep | ls8/cpu.py:121-122 | a fetched POP runs `run_POP` and prints nothing |
| CpuProperties.PushThenPop | ls8/cpu.py:155-167 | PUSH r then POP r' (r' not the stack pointer) leaves r' equal to the old r, restores register 7, advances pc by 4 and prints nothing; all other registers are as before the PUSH |
| CpuProperties.LdiThenPrn | ls8/cpu.py:141-147 | LDI r, v directly followed by PRN r prints exactly one register list, and it holds v in register r |
| CpuProperties.UnknownOpcodeSpins | ls8/cpu.py:102-122 | a running machine whose fetched command is not an opcode never halts, crashes or prints, whatever the fuel |
| CpuProperties.RunFuelMonotone | ls8/cpu.py:102-122 | a run that halted or crashed within some fuel ends identically with more fuel |
| CpuProperties.LoopFuelMonotone | ls8/cpu.py:102-103 | for any one-iteration function, a loop that halted or crashed within some fuel ends identically with more fuel |
| CpuProperties.LoopSplit | ls8/cpu.py:102-103 | for any one-iteration function, a loop cut off after k iterations continues from the machine it stopped at: k + f iterations are the first k followed by f more from there, with the printed output concatenated |
| CpuProperties.ReachedUnknownSpins | ls8/cpu.py:102-122 | a run that reaches a command outside the opcode table never halts, crashes or prints again: every larger fuel gives the same cut-off result |
| CpuProperties.NotStartedStops | ls8/cpu.py:102 | on a machine whose running flag is false the loop body never executes |
| CpuProperties.Print8 | ls8/cpu.py:55-63 | the print8 program `LDI R0,8; PRN R0; HLT`, loaded into a machine that is not running and started by `run_start`, halts in three steps with pc 0 and prints one register list with 8 in register 0 |
| Loader.BeforeHash | ls8/cpu.py:41-43 | `line.split("#")[0]` is the longest `#`-free prefix of the line |
| Loader.LeadingSpaces | ls8/cpu.py:43 | counts the whitespace a text starts with: all of it is whitespace and the next character is not |
| Loader.TrailingSpaces | ls8/cpu.py:43 | counts the whitespace a text ends with, symmetrically |
| Loader.Strip | ls8/cpu.py:43 | the stripped text neither starts nor ends with whitespace |
| Loader.StripSlice | ls8/cpu.py:43 | the stripped text is a contiguous slice of the input with only whitespace before and after it |
| Loader.BinValue | ls8/cpu.py:47 | the base-2 value of an n-digit numeral is below 2^n |
| Loader.ToBits | ls8/cpu.py:47 | the `width`-digit rendering of a value below 2^width is a binary numeral of that width whose base-2 value is the value |
| Loader.Kept | ls8/cpu.py:39-46 | a text never keeps more lines than it has |
| Loader.ParseLines | ls8/cpu.py:39-47 | parsing fails only with `NotBinary`, on a non-empty text that is not a binary numeral |
| Loader.ParseLinesMeaning | ls8/cpu.py:39-47 | parsing succeeds iff every kept line is a binary numeral; the i-th value is then the base-2 value of the i-th kept line, with one value per kept line |
| Loader.ParseLinesFirstError | ls8/cpu.py:39-47 | a failed parse reports the text of the first kept line that is not a binary numeral; every kept line before it is one |
| Loader.Place | ls8/cpu.py:65-67 | after placement, cell i holds the i-th program value below the program length and its old value from there on |
| Loader.CopyProgram | ls8/cpu.py:65-67 | the copy loop succeeds iff the program fits in 256 cells, and then yields exactly `Place`; otherwise it fails at address 256 |
| Loader.Load | ls8/cpu.py:36-67 | loading succeeds iff every kept line is a binary numeral and there are between 1 and 256 of them; then cell i holds the value of the i-th kept line, cells from the program length on keep their value, and registers, pc and running are untouched. Otherwise it reports the first kept line that is not a numeral (the ValueError of `int(c, 2)`), `NoProgram` when no line is kept (`program` is then unbound at line 53), or `RamOverflow(256)` for more than 256 values (the IndexError of the copy loop) |
| LoaderProperties.KeptAppend | ls8/cpu.py:39-46 | the kept lines of two texts one after the other are the kept lines of the first followed by those of the second |
| LoaderProperties.BlankLineIgnored | ls8/cpu.py:44-45 | inserting a blank or comment-only line anywhere leaves the parse result, error or program, unchanged |
| LoaderProperties.StripEmpty | ls8/cpu.py:43-45 | stripping leaves nothing iff the text is entirely whitespace |
| LoaderProperties.BeforeHashAppend | ls8/cpu.py:41 | cutting at `#` passes over any `#`-free prefix unchanged |
| LoaderProperties.CommentOnlyLine | ls8/cpu.py:40-45 | a line of whitespace followed by a `#` comment is blank to the loader |
| LoaderProperties.StripPadded | ls8/cpu.py:43 | stripping removes exactly the whitespace padding around a core that does not start or end with whitespace |
| LoaderProperties.BitsRoundTrip | ls8/cpu.py:47 | rendering the value of an n-digit numeral at width n gives the numeral back, so `ToBits` and `BinValue` are inverse |
| LoaderProperties.LeadingDigit | ls8/cpu.py:47 | `int(s, 2)` reads the digits most significant first: the leading digit of an (n+1)-digit numeral weighs 2^n |
| LoaderProperties.LeadingZeros | ls8/cpu.py:47 | leading zeros do not change the value of a numeral |
| LoaderProperties.LdiNumeral | ls8/cpu.py:57 | the numeral `10000010` that program files use for LDI reads as the LDI opcode, 130 |
| LoaderProperties.NumeralLineText | ls8/cpu.py:41-43 | a numeral followed by whitespace and a comment cleans to the bare numeral |
| LoaderProperties.NumeralLine | ls8/cpu.py:39-47 | a one-line text holding a numeral, optional whitespace and a comment loads as exactly that numeral's value |
| LoaderProperties.SingleLine | ls8/cpu.py:39-47 | a one-line text whose cleaned text is a numeral loads as that numeral's value |

## Left out

- Command-line and file handling are not modelled: the `sys.argv` check, `open`, the `FileNotFoundError` handler and the `sys.exit` codes (ls8/cpu.py:32-51). They are operating-system plumbing. The loader is modelled on the sequence of lines the file yields, as `Loader.Load`.
- How Python's file iteration splits a file into lines is not modelled. A line may still carry its newline, which stripping removes.
- Loader.ParseLines: accepts only the digits `0` and `1`. Python's `int(text, 2)` also accepts a sign, `_` between digits, a `0b` prefix and non-ASCII decimal digits 0 and 1. The model reports such lines as `NotBinary`, where Python would read a value.
- Most printing is not modelled: the "Program Started" and "Program Ended" banners (ls8/cpu.py:132, 137) and the `program` dump (ls8/cpu.py:53). They carry no machine state. The register dumps of PRN and MUL are modelled as events.
- `alu` and `trace` (ls8/cpu.py:69-96) are not modelled. They use `self.reg`, which is never defined, and nothing calls them.
- The module-level `cpu = CPU(); cpu.run()` (ls8/cpu.py:170-172) is not modelled, and neither is `run`'s call to `load` (ls8/cpu.py:100). `Run` starts from a machine that is already loaded.
- Cpu.Run: is bounded by fuel. A loop that never ends, as with an unknown command, appears as `OutOfFuel` for every bound rather than as divergence.
- Python mutates the state before some IndexErrors are raised. For example, PUSH decrements the stack pointer before its store fails. The model drops that state, because the uncaught exception ends the process.
- Whitespace is the list of characters in `Loader.IsSpace`, the ones Python's `str.isspace` accepts. It is taken as fixed; Unicode database versions are not modelled.

=== FILE: cpu.dfy ===
/**
 * The fetch-decode-execute loop of ls8/cpu.py: one iteration is `Step`, the
 * `while self.running` loop is `Run`, bounded by fuel.
 *
 * A Python IndexError is uncaught and ends the process, so a faulting step
 * yields the `Fault` and no successor state. Printing the register list (PRN,
 * and MUL before it multiplies) is recorded as a `RegisterDump` event.
 */
module Cpu {
  import opened Results
  import opened State

  /** What the machine writes to standard output: `print(self.register)`. */
  datatype Event = RegisterDump(values: Registers)

  /** The successor state (or the fault) and the output of one step. */
  datatype Outcome = Outcome(state: Result<Machine, Fault>, out: seq<Event>)

  /** How a fuel-bounded run ended, with everything printed on the way. */
  datatype RunResult =
    | Halted(final: Machine, trace: seq<Event>)
    | Crashed(fault: Fault, trace: seq<Event>)
    | OutOfFuel(last: Machine, trace: seq<Event>)

  /** `ram_read(self.pc + k)`, the k-th operand byte, when it exists. */
  function Operand(m: Machine, k: int): int
    requires InRam(m.pc + k)
  {
    RamRead(m.ram, m.pc + k).value
  }

  /** `run_start`: the loop may begin; only the running flag changes. */
  function RunStart(m: Machine): (r: Machine)
    ensures r.running && r.(running := m.running) == m
  {
    m.(running := true)
  }

  /** `run_HLT`: stop the loop and rewind the program counter; nothing
      else changes. */
  function RunHlt(m: Machine): (r: Machine)
    ensures !r.running && r.pc == 0
    ensures r.(running := m.running, pc := m.pc) == m
  {
    m.(running := false, pc := 0)
  }

  /** `run_LDI`: `register[ram[pc+1]] := ram[pc+2]`, then `pc += 3`. Python
      evaluates the right-hand side before the subscript of the target. */
  function RunLdi(m: Machine): (r: Result<Machine, Fault>)
    ensures r.Ok? <==> InRam(m.pc + 1) && InRam(m.pc + 2) && IsRegister(Operand(m, 1))
    ensures r.Ok? ==> r.value == m.(register := m.register[Slot(Operand(m, 1)) := Operand(m, 2)], pc := m.pc + 3)
  {
    var value :- RamRead(m.ram, m.pc + 2);
    var index :- RamRead(m.ram, m.pc + 1);
    var register :- RegWrite(m.register, index, value);
    Ok(m.(register := register, pc := m.pc + 3))
  }

  /** `run_PRN`: print the registers (left to `Step`) and skip the operand.
      The operand byte is never read. */
  function RunPrn(m: Machine): (r: Machine)
    ensures r.pc == m.pc + 2 && r.(pc := m.pc) == m
  {
    m.(pc := m.pc + 2)
  }

  /** `run_MUL`: `register[a] := register[a] * register[b]` for the operands
      a = ram[pc+1] and b = ram[pc+2], an unbounded product; then `pc += 3`.
      The target subscript re-reads ram[pc+1], which already succeeded. */
  function RunMul(m: Machine): (r: Result<Machine, Fault>)
    ensures r.Ok? <==>
      InRam(m.pc + 1) && IsRegister(Operand(m, 1)) && InRam(m.pc + 2) && IsRegister(Operand(m, 2))
    ensures r.Ok? ==>
      var a, b := Slot(Operand(m, 1)), Slot(Operand(m, 2));
      r.value == m.(register := m.register[a := m.register[a] * m.register[b]], pc := m.pc + 3)
  {
    var a :- RamRead(m.ram, m.pc + 1);
    var x :- RegRead(m.register, a);
    var b :- RamRead(m.ram, m.pc + 2);
    var y :- RegRead(m.register, b);
    var register := RegWrite(m.register, a, x * y).value;
    Ok(m.(register := register, pc := m.pc + 3))
  }

  /** `run_PUSH`: read the register named by the operand, decrement the stack
      pointer, store the value at the new stack pointer, then `pc += 2`. */
  function RunPush(m: Machine): (r: Result<Machine, Fault>)
    ensures r.Ok? <==> InRam(m.pc + 1) && IsRegister(Operand(m, 1)) && InRam(m.register[SP] - 1)
    ensures r.Ok? ==>
      var sp := m.register[SP] - 1;
      r.value == m.(ram := m.ram[Cell(sp) := m.register[Slot(Operand(m, 1))]],
                    register := m.register[SP := sp],
                    pc := m.pc + 2)
  {
    var index :- RamRead(m.ram, m.pc + 1);
    var value :- RegRead(m.register, index);
    var register := m.register[SP := m.register[SP] - 1];
    var ram :- RamWrite(m.ram, register[SP], value);
    Ok(m.(ram := ram, register := register, pc := m.pc + 2))
  }

  /** `run_POP`: copy the cell at the stack pointer into the register named by
      the operand, then increment the stack pointer and `pc += 2`. When the
      operand names the stack pointer itself, the increment applies to the
      popped value. */
  function RunPop(m: Machine): (r: Result<Machine, Fault>)
    ensures r.Ok? <==> InRam(m.pc + 1) && InRam(m.register[SP]) && IsRegister(Operand(m, 1))
    ensures r.Ok? ==>
      var loaded := m.register[Slot(Operand(m, 1)) := m.ram[Cell(m.register[SP])]];
      r.value == m.(register := loaded[SP := loaded[SP] + 1], pc := m.pc + 2)
  {
    var index :- RamRead(m.ram, m.pc + 1);
    var value :- RamRead(m.ram, m.register[SP]);
    var register :- RegWrite(m.register, index, value);
    Ok(m.(register := register[SP := register[SP] + 1], pc := m.pc + 2))
  }

  /** `ram_read(self.pc)`: the command the loop compares against the opcodes. */
  function Fetch(m: Machine): Result<int, Fault> {
    RamRead(m.ram, m.pc)
  }

  /** One iteration of the `while self.running` loop. A command that matches
      no opcode runs no handler, so the state comes back unchanged. */
  function Step(m: Machine): (r: Outcome)
    ensures Fetch(m).Err? ==> r == Outcome(Err(RamIndexError(m.pc)), [])
    ensures Fetch(m).Ok? && Decode(Fetch(m).value).None? ==> r == Outcome(Ok(m), [])
    ensures r.state.Ok? && r.state.value.running != m.running ==> Fetch(m) == Ok(HLT)
    ensures r.state.Ok? && m.running && !r.state.value.running ==> r.state.value.pc == 0
    ensures r.out != [] ==> r.out == [RegisterDump(m.register)] && Fetch(m) in {Ok(PRN), Ok(MUL)}
  {
    match Fetch(m)
    case Err(f) => Outcome(Err(f), [])
    case Ok(command) =>
      match Decode(command)
      case None => Outcome(Ok(m), [])
      case Some(Hlt) => Outcome(Ok(RunHlt(m)), [])
      case Some(Ldi) => Outcome(RunLdi(m), [])
      case Some(Prn) => Outcome(Ok(RunPrn(m)), [RegisterDump(m.register)])
      case Some(Mul) => Outcome(RunMul(m), [RegisterDump(m.register)])
      case Some(Push) => Outcome(RunPush(m), [])
      case Some(Pop) => Outcome(RunPop(m), [])
  }

  /** `r` with `out` printed before everything it records. */
  function Prepend(out: seq<Event>, r: RunResult): RunResult {
    r.(trace := out + r.trace)
  }

  /** The `while self.running` loop driven by a given one-iteration
      function, for at most `fuel` iterations. */
  function Loop(step: Machine -> Outcome, m: Machine, fuel: nat): (r: RunResult)
    ensures r.Halted? ==> !r.final.running
    ensures r.OutOfFuel? ==> r.last.running
    decreases fuel
  {
    if !m.running then Halted(m, [])
    else if fuel == 0 then OutOfFuel(m, [])
    else
      var o := step(m);
      match o.state
      case Err(f) => Crashed(f, o.out)
      case Ok(next) => Prepend(o.out, Loop(step, next, fuel - 1))
  }

  /** `step` rewinds pc whenever it stops a running machine. */
  predicate StopsAtZero(step: Machine -> Outcome, m: Machine) {
    var o := step(m);
    o.state.Ok? && m.running && !o.state.value.running ==> o.state.value.pc == 0
  }

  /** If every iteration that stops the machine rewinds pc, a run that
      started and halted ends with pc 0. */
  lemma {:induction false} LoopHaltsAtZero(step: Machine -> Outcome, m: Machine, fuel: nat)
    requires forall x :: StopsAtZero(step, x)
    ensures var r := Loop(step, m, fuel);
      r.Halted? && m.running ==> r.final.pc == 0
    decreases fuel
  {
    if m.running && fuel > 0 {
      var o := step(m);
      if o.state.Ok? {
        var next := o.state.value;
        if next.running {
          LoopHaltsAtZero(step, next, fuel - 1);
        } else {
          assert StopsAtZero(step, m);
        }
      }
    }
  }

  /** The LS-8 loop, for at most `fuel` iterations. */
  function Run(m: Machine, fuel: nat): (r: RunResult)
    ensures r.Halted? ==> !r.final.running
    ensures r.Halted? && m.running ==> r.final.pc == 0
    ensures r.OutOfFuel? ==> r.last.running
  {
    assert forall x :: StopsAtZero(Step, x);
    LoopHaltsAtZero(Step, m, fuel);
    Loop(Step, m, fuel)
  }
}

=== FILE: cpu_properties.dfy ===
/**
 * Properties of single instructions and of whole runs of the LS-8 loop.
 */
module CpuProperties {
  import opened Results
  import opened State
  import opened Cpu

  /** HLT clears the running flag and rewinds pc, and the loop then exits
      whatever fuel is left. */
  lemma HltEndsRun(m: Machine, fuel: nat)
    requires m.running && Fetch(m) == Ok(HLT)
    ensures Step(m) == Outcome(Ok(m.(running := false, pc := 0)), [])
    ensures Run(m, fuel + 1) == Halted(m.(running := false, pc := 0), [])
  {
    var h := m.(running := false, pc := 0);
    assert Step(m) == Outcome(Ok(h), []);
    assert Loop(Step, h, fuel) == Halted(h, []);
  }

  /** A step faults exactly when pc is outside memory, or the fetched
      instruction is one of the four that index memory or registers with an
      operand and that indexing fails. HLT, PRN and unknown commands never
      fault. */
  lemma StepFaults(m: Machine)
    ensures Step(m).state.Err? <==>
      || Fetch(m).Err?
      || (Fetch(m) == Ok(LDI) && RunLdi(m).Err?)
      || (Fetch(m) == Ok(MUL) && RunMul(m).Err?)
      || (Fetch(m) == Ok(PUSH) && RunPush(m).Err?)
      || (Fetch(m) == Ok(POP) && RunPop(m).Err?)
  {
  }

  /** Dispatch: a fetched LDI runs `run_LDI` and prints nothing, whether or
      not its operands are valid. */
  lemma LdiStep(m: Machine)
    requires Fetch(m) == Ok(LDI)
    ensures Step(m) == Outcome(RunLdi(m), [])
  {
  }

  /** LDI with in-range operands sets one register to the immediate byte and
      advances pc by three; memory and the running flag are untouched. */
  lemma LdiLoads(m: Machine)
    requires Fetch(m) == Ok(LDI)
    requires InRam(m.pc + 1) && InRam(m.pc + 2) && IsRegister(Operand(m, 1))
    ensures Step(m) == Outcome(Ok(m.(register := m.register[Slot(Operand(m, 1)) := Operand(m, 2)], pc := m.pc + 3)), [])
  {
  }

  /** PRN never faults: it prints the registers and only moves pc by two. */
  lemma PrnStep(m: Machine)
    requires Fetch(m) == Ok(PRN)
    ensures Step(m) == Outcome(Ok(m.(pc := m.pc + 2)), [RegisterDump(m.register)])
  {
  }

  /** MUL of a register by itself squares it, without truncation. */
  lemma MulSquares(m: Machine)
    requires Fetch(m) == Ok(MUL)
    requires InRam(m.pc + 1) && InRam(m.pc + 2) && Operand(m, 1) == Operand(m, 2) && IsRegister(Operand(m, 1))
    ensures Step(m).state.Ok?
    ensures var a := Slot(Operand(m, 1));
      Step(m).state.value.register == m.register[a := m.register[a] * m.register[a]]
  {
  }

  /** Since the stack pointer register starts at 0, the first PUSH moves it to
      -1 and stores into the last memory cell. */
  lemma FirstPushWrapsToTop(m: Machine)
    requires m.register[SP] == 0 && Fetch(m) == Ok(PUSH)
    requires InRam(m.pc + 1) && IsRegister(Operand(m, 1))
    ensures Step(m).state.Ok?
    ensures Step(m).state.value.register[SP] == -1
    ensures Step(m).state.value.ram[RamSize - 1] == m.register[Slot(Operand(m, 1))]
  {
  }

  /** A fetched MUL prints the registers as they were, then runs `run_MUL`. */
  lemma MulStep(m: Machine)
    requires Fetch(m) == Ok(MUL)
    ensures Step(m) == Outcome(RunMul(m), [RegisterDump(m.register)])
  {
  }

  /** Dispatch of the two stack instructions. */
  lemma PushStep(m: Machine)
    requires Fetch(m) == Ok(PUSH)
    ensures Step(m) == Outcome(RunPush(m), [])
  {
  }

  lemma PopStep(m: Machine)
    requires Fetch(m) == Ok(POP)
    ensures Step(m) == Outcome(RunPop(m), [])
  {
  }

  /** PUSH r then POP r' (r' not the stack pointer) copies the old value of r
      into r', restores the stack pointer and advances pc by four; the pushed
      value stays in memory below the stack pointer. */
  lemma PushThenPop(m: Machine)
    requires m.running && Fetch(m) == Ok(PUSH) && RunPush(m).Ok?
    requires var m1 := RunPush(m).value;
      Fetch(m1) == Ok(POP) && InRam(m1.pc + 1) && IsRegister(Operand(m1, 1)) && Slot(Operand(m1, 1)) != SP
    ensures var m1 := RunPush(m).value;
      var v := m.register[Slot(Operand(m, 1))];
      Run(m, 2) == OutOfFuel(m1.(register := m.register[Slot(Operand(m1, 1)) := v], pc := m.pc + 4), [])
  {
    var m1 := RunPush(m).value;
    var v := m.register[Slot(Operand(m, 1))];
    var sp := m.register[SP] - 1;
    assert m1.ram[Cell(sp)] == v && m1.register[SP] == sp;
    PushStep(m);
    var target := Slot(Operand(m1, 1));
    var m2 := RunPop(m1).value;
    PopStep(m1);
    assert m2.register == m.register[target := v] by {
      var loaded := m1.register[target := v];
      assert loaded[SP] == sp;
      assert m2.register == loaded[SP := sp + 1];
    }
    assert Run(m2, 0) == OutOfFuel(m2, []);
    assert Run(m1, 1) == Run(m2, 0);
  }

  /** LDI r, v directly followed by PRN r prints a register list holding v in r. */
  lemma LdiThenPrn(m: Machine)
    requires m.running && 0 <= m.pc && m.pc + 3 < RamSize
    requires m.ram[m.pc] == LDI && IsRegister(m.ram[m.pc + 1]) && m.ram[m.pc + 3] == PRN
    ensures var r := Run(m, 2);
      r.OutOfFuel? && |r.trace| == 1 && r.trace[0].values[Slot(m.ram[m.pc + 1])] == m.ram[m.pc + 2]
  {
    var m1 := m.(register := m.register[Slot(m.ram[m.pc + 1]) := m.ram[m.pc + 2]], pc := m.pc + 3);
    LdiLoads(m);
    assert Step(m) == Outcome(Ok(m1), []);
    PrnStep(m1);
    var m2 := m1.(pc := m1.pc + 2);
    assert Run(m2, 0) == OutOfFuel(m2, []);
    assert Run(m1, 1) == OutOfFuel(m2, [RegisterDump(m1.register)]);
  }

  /** A command outside the opcode table changes nothing, so the loop never
      leaves it: every fuel bound runs out with the machine as it was. */
  lemma {:induction false} UnknownOpcodeSpins(m: Machine, fuel: nat)
    requires m.running && Fetch(m).Ok? && Decode(Fetch(m).value).None?
    ensures Run(m, fuel) == OutOfFuel(m, [])
    decreases fuel
  {
    if fuel > 0 {
      UnknownOpcodeSpins(m, fuel - 1);
    }
  }

  /** A run that halted or crashed within some fuel ends the same way with
      any larger fuel, whatever the one-iteration function: the loop is
      deterministic. */
  lemma {:induction false} LoopFuelMonotone(step: Machine -> Outcome, m: Machine, fuel: nat, extra: nat)
    requires !Loop(step, m, fuel).OutOfFuel?
    ensures Loop(step, m, fuel + extra) == Loop(step, m, fuel)
    decreases fuel
  {
    if m.running && fuel > 0 {
      var o := step(m);
      if o.state.Ok? {
        LoopFuelMonotone(step, o.state.value, fuel - 1, extra);
        assert fuel + extra - 1 == fuel - 1 + extra;
      }
    }
  }

  /** The same for the LS-8 loop. */
  lemma RunFuelMonotone(m: Machine, fuel: nat, extra: nat)
    requires !Run(m, fuel).OutOfFuel?
    ensures Run(m, fuel + extra) == Run(m, fuel)
  {
    LoopFuelMonotone(Step, m, fuel, extra);
  }

  /** A run cut off after `k` iterations goes on from where it stopped:
      `k + f` iterations are those `k`, then `f` more from the machine the
      first `k` left behind. */
  lemma {:induction false} LoopSplit(step: Machine -> Outcome, m: Machine, k: nat, f: nat)
    requires Loop(step, m, k).OutOfFuel?
    ensures Loop(step, m, k + f) == Prepend(Loop(step, m, k).trace, Loop(step, Loop(step, m, k).last, f))
    decreases k
  {
    if k == 0 {
      assert Loop(step, m, k) == OutOfFuel(m, []);
      assert Prepend([], Loop(step, m, f)) == Loop(step, m, f);
    } else {
      var o := step(m);
      assert o.state.Ok?;
      var next := o.state.value;
      var head := Loop(step, next, k - 1);
      assert Loop(step, m, k) == Prepend(o.out, head);
      LoopSplit(step, next, k - 1, f);
      var tail := Loop(step, head.last, f);
      assert k + f - 1 == k - 1 + f;
      assert Loop(step, m, k + f) == Prepend(o.out, Loop(step, next, k - 1 + f));
      assert o.out + (head.trace + tail.trace) == (o.out + head.trace) + tail.trace;
    }
  }

  /** Once a run reaches a command outside the opcode table it never halts,
      crashes or prints again: more fuel leaves the result as it was. */
  lemma ReachedUnknownSpins(m: Machine, k: nat, f: nat)
    requires Run(m, k).OutOfFuel?
    requires Fetch(Run(m, k).last).Ok? && Decode(Fetch(Run(m, k).last).value).None?
    ensures Run(m, k + f) == Run(m, k)
  {
    var r := Run(m, k);
    LoopSplit(Step, m, k, f);
    UnknownOpcodeSpins(r.last, f);
    assert r.trace + [] == r.trace;
  }

  /** Without `run_start` the loop body never executes. */
  lemma NotStartedStops(m: Machine, fuel: nat)
    requires !m.running
    ensures Run(m, fuel) == Halted(m, [])
  {
  }

  /** The print8 program, loaded into a machine that is not yet running and
      then started: LDI R0,8; PRN R0; HLT prints 8 in register 0, halts and
      leaves pc at 0. */
  lemma Print8(rest: seq<int>)
    requires |rest| == RamSize - 6
    ensures var zeros := seq(RegisterCount, _ => 0);
      var m := Machine([LDI, 0, 8, PRN, 0, HLT] + rest, zeros, 0, false);
      Run(RunStart(m), 3) == Halted(m.(register := zeros[0 := 8], pc := 0, running := false), [RegisterDump(zeros[0 := 8])])
  {
  }
}

=== FILE: loader.dfy ===
/**
 * The pure part of `CPU.load` in ls8/cpu.py: each line of the program text
 * is cut at its first `#`, stripped of whitespace, skipped when nothing is
 * left and otherwise read as a base-2 integer; the resulting program is
 * copied into memory from address 0.
 *
 * Only the digits '0' and '1' are accepted; forms Python's `int(text, 2)`
 * also takes (a sign, `_` separators, a `0b` prefix) are reported as
 * `NotBinary` here.
 */
module Loader {
  import opened Results
  import opened State

  /** Why loading stops: a kept line that is not a binary numeral (Python's
      ValueError), a text with no kept line at all (the loader then reads
      `program` before any assignment), or a program longer than memory (the
      IndexError of the copy loop at `address`). */
  datatype LoadError = NotBinary(text: string) | NoProgram | RamOverflow(address: nat)

  /** The characters Python's `str.strip()` removes (`str.isspace`): the
      ASCII ranges U+0009..U+000D and U+001C..U+0020, and the Unicode
      separators. */
  predicate IsSpace(c: char) {
    || '\t' <= c <= '\r'
    || '\U{1C}' <= c <= ' '
    || c == '\U{85}' || c == '\U{A0}' || c == '\U{1680}'
    || '\U{2000}' <= c <= '\U{200A}'
    || c == '\U{2028}' || c == '\U{2029}' || c == '\U{202F}' || c == '\U{205F}' || c == '\U{3000}'
  }

  predicate AllSpace(s: string) {
    forall i :: 0 <= i < |s| ==> IsSpace(s[i])
  }

  /** `line.split("#")[0]`: the text before the first `#`. */
  function BeforeHash(line: string): (r: string)
    ensures r <= line && '#' !in r
    ensures |r| < |line| ==> line[|r|] == '#'
  {
    if line == [] || line[0] == '#' then [] else [line[0]] + BeforeHash(line[1..])
  }

  /** The number of whitespace characters `s` starts with. */
  function LeadingSpaces(s: string): (n: nat)
    ensures n <= |s|
    ensures forall i :: 0 <= i < n ==> IsSpace(s[i])
    ensures n < |s| ==> !IsSpace(s[n])
  {
    if s != [] && IsSpace(s[0]) then 1 + LeadingSpaces(s[1..]) else 0
  }

  /** The number of whitespace characters `s` ends with. */
  function TrailingSpaces(s: string): (n: nat)
    ensures n <= |s|
    ensures forall i :: |s| - n <= i < |s| ==> IsSpace(s[i])
    ensures n < |s| ==> !IsSpace(s[|s| - n - 1])
  {
    if s != [] && IsSpace(s[|s| - 1]) then 1 + TrailingSpaces(s[..|s| - 1]) else 0
  }

  /** `s.strip()`: what is left once the whitespace at both ends is gone; it
      neither starts nor ends with whitespace. */
  function Strip(s: string): (r: string)
    ensures r == [] || (!IsSpace(r[0]) && !IsSpace(r[|r| - 1]))
  {
    var t := s[LeadingSpaces(s)..];
    t[..|t| - TrailingSpaces(t)]
  }

  /** `Strip` only removes whitespace, and only at the two ends: its result
      is the slice of `s` after the leading whitespace, followed in `s` by
      whitespace alone. */
  lemma StripSlice(s: string)
    ensures LeadingSpaces(s) + |Strip(s)| <= |s|
    ensures forall i :: 0 <= i < |Strip(s)| ==> Strip(s)[i] == s[LeadingSpaces(s) + i]
    ensures forall i :: LeadingSpaces(s) + |Strip(s)| <= i < |s| ==> IsSpace(s[i])
  {
    var lo := LeadingSpaces(s);
    var t := s[lo..];
    var n := TrailingSpaces(t);
    var r := Strip(s);
    assert r == t[..|t| - n];
    forall i | 0 <= i < |r|
      ensures r[i] == s[lo + i]
    {
      assert r[i] == t[i];
    }
    forall i | lo + |t| - n <= i < |s|
      ensures IsSpace(s[i])
    {
      assert s[i] == t[i - lo];
    }
  }

  /** The text of a line that the loader looks at. */
  function Clean(line: string): string {
    Strip(BeforeHash(line))
  }

  predicate IsBinary(s: string) {
    forall i :: 0 <= i < |s| ==> s[i] == '0' || s[i] == '1'
  }

  function Pow2(n: nat): (p: nat)
    ensures p >= 1
  {
    if n == 0 then 1 else 2 * Pow2(n - 1)
  }

  /** `int(s, 2)` for a numeral of binary digits, most significant first. */
  function BinValue(s: string): (v: nat)
    requires IsBinary(s)
    ensures v < Pow2(|s|)
  {
    if s == [] then 0
    else 2 * BinValue(s[..|s| - 1]) + (if s[|s| - 1] == '1' then 1 else 0)
  }

  /** The `width`-digit binary numeral of `v`, as program files write bytes;
      reading it back gives `v`. */
  function ToBits(v: nat, width: nat): (s: string)
    requires v < Pow2(width)
    ensures |s| == width && IsBinary(s) && BinValue(s) == v
  {
    if width == 0 then []
    else
      var s := ToBits(v / 2, width - 1) + [if v % 2 == 1 then '1' else '0'];
      assert s[..|s| - 1] == ToBits(v / 2, width - 1);
      s
  }

  /** The cleaned text of every line that is not blank, in file order. */
  function Kept(lines: seq<string>): (r: seq<string>)
    ensures |r| <= |lines|
  {
    if lines == [] then [] else KeptLine(lines[0]) + Kept(lines[1..])
  }

  /** What one line contributes to `Kept`: its cleaned text unless blank. */
  function KeptLine(line: string): seq<string> {
    if Clean(line) == [] then [] else [Clean(line)]
  }

  predicate AllBinary(texts: seq<string>) {
    forall i :: 0 <= i < |texts| ==> IsBinary(texts[i])
  }

  /** The loop over the lines: one value per kept line, or the first kept
      line that is not a binary numeral (see `ParseLinesMeaning`). */
  function ParseLines(lines: seq<string>): (r: Result<seq<int>, LoadError>)
    ensures r.Err? ==> r.error.NotBinary? && r.error.text != [] && !IsBinary(r.error.text)
  {
    if lines == [] then Ok([])
    else
      var text := Clean(lines[0]);
      if text == [] then ParseLines(lines[1..])
      else if !IsBinary(text) then Err(NotBinary(text))
      else
        var rest :- ParseLines(lines[1..]);
        Ok([BinValue(text)] + rest)
  }

  /** `values` holds, in order, the base-2 values of the numerals `texts`. */
  predicate ValuesOf(values: seq<int>, texts: seq<string>) {
    && AllBinary(texts)
    && |values| == |texts|
    && forall i :: 0 <= i < |texts| ==> values[i] == BinValue(texts[i])
  }

  lemma AllBinaryCons(text: string, texts: seq<string>)
    ensures AllBinary([text] + texts) <==> IsBinary(text) && AllBinary(texts)
  {
    var all := [text] + texts;
    assert all[0] == text;
    assert forall i :: 0 <= i < |texts| ==> all[i + 1] == texts[i];
  }

  lemma ValuesOfCons(text: string, texts: seq<string>, values: seq<int>)
    requires IsBinary(text) && ValuesOf(values, texts)
    ensures ValuesOf([BinValue(text)] + values, [text] + texts)
  {
    AllBinaryCons(text, texts);
    var vs, ts := [BinValue(text)] + values, [text] + texts;
    forall i | 0 <= i < |ts|
      ensures vs[i] == BinValue(ts[i])
    {
      if i > 0 {
        assert ts[i] == texts[i - 1] && vs[i] == values[i - 1];
      }
    }
  }

  /** Parsing succeeds exactly when every kept line is a binary numeral, and
      then the values are the base-2 values of the kept lines, in order. */
  lemma {:induction false} ParseLinesMeaning(lines: seq<string>)
    ensures ParseLines(lines).Ok? <==> AllBinary(Kept(lines))
    ensures ParseLines(lines).Ok? ==> ValuesOf(ParseLines(lines).value, Kept(lines))
  {
    if lines != [] {
      var line, rest := lines[0], lines[1..];
      ParseLinesMeaning(rest);
      assert Kept(lines) == KeptLine(line) + Kept(rest);
      var text := Clean(line);
      if text == [] {
        assert Kept(lines) == Kept(rest);
        assert ParseLines(lines) == ParseLines(rest);
      } else {
        assert Kept(lines) == [text] + Kept(rest);
        AllBinaryCons(text, Kept(rest));
        if IsBinary(text) && ParseLines(rest).Ok? {
          assert ParseLines(lines) == Ok([BinValue(text)] + ParseLines(rest).value);
          ValuesOfCons(text, Kept(rest), ParseLines(rest).value);
        }
      }
    }
  }

  /** `text` is the first of `texts` that is not a binary numeral. */
  predicate FirstNonBinary(texts: seq<string>, text: string) {
    exists i :: 0 <= i < |texts| && texts[i] == text && !IsBinary(text) && AllBinary(texts[..i])
  }

  lemma FirstNonBinaryCons(text: string, texts: seq<string>, bad: string)
    requires IsBinary(text) && FirstNonBinary(texts, bad)
    ensures FirstNonBinary([text] + texts, bad)
  {
    var all := [text] + texts;
    var i :| 0 <= i < |texts| && texts[i] == bad && !IsBinary(bad) && AllBinary(texts[..i]);
    assert all[i + 1] == bad;
    assert all[..i + 1] == [text] + texts[..i];
    AllBinaryCons(text, texts[..i]);
  }

  /** A failed parse reports the first kept line that is not a binary
      numeral, which is where Python's `int(c, 2)` raises. */
  lemma {:induction false} ParseLinesFirstError(lines: seq<string>)
    ensures ParseLines(lines).Err? ==> FirstNonBinary(Kept(lines), ParseLines(lines).error.text)
  {
    if lines != [] && ParseLines(lines).Err? {
      var line, rest := lines[0], lines[1..];
      var text := Clean(line);
      assert Kept(lines) == KeptLine(line) + Kept(rest);
      if text == [] {
        assert Kept(lines) == Kept(rest);
        assert ParseLines(lines) == ParseLines(rest);
        ParseLinesFirstError(rest);
      } else if !IsBinary(text) {
        assert Kept(lines)[0] == text;
        assert Kept(lines)[..0] == [];
      } else {
        assert Kept(lines) == [text] + Kept(rest);
        assert ParseLines(lines).error == ParseLines(rest).error;
        ParseLinesFirstError(rest);
        FirstNonBinaryCons(text, Kept(rest), ParseLines(rest).error.text);
      }
    }
  }

  /** Memory with `program` over its first cells and the old contents above. */
  function Place(ram: Ram, program: seq<int>): (r: Ram)
    requires |program| <= RamSize
    ensures forall a :: 0 <= a < |program| ==> r[a] == program[a]
    ensures forall a :: |program| <= a < RamSize ==> r[a] == ram[a]
  {
    program + ram[|program|..]
  }

  /** The copy loop of the loader: each program value goes into the next
      memory cell, counting up from address 0. */
  method CopyProgram(ram: Ram, program: seq<int>) returns (r: Result<Ram, LoadError>)
    ensures r.Ok? <==> |program| <= RamSize
    ensures r.Ok? ==> r.value == Place(ram, program)
    ensures r.Err? ==> r.error == RamOverflow(RamSize)
  {
    var cells := ram;
    var address := 0;
    while address < |program|
      invariant 0 <= address <= |program| && address <= RamSize
      invariant cells[..address] == program[..address]
      invariant cells[address..] == ram[address..]
    {
      if address == RamSize {
        return Err(RamOverflow(address));
      }
      cells := cells[address := program[address]];
      address := address + 1;
    }
    assert cells == program + ram[|program|..] by {
      assert cells == cells[..address] + cells[address..];
    }
    return Ok(cells);
  }

  /** The whole loader on the lines of a program text, into machine `m`. */
  function Load(m: Machine, lines: seq<string>): (r: Result<Machine, LoadError>)
    ensures r.Ok? <==> AllBinary(Kept(lines)) && 0 < |Kept(lines)| <= RamSize
    ensures r.Ok? ==> r.value.register == m.register && r.value.pc == m.pc && r.value.running == m.running
    ensures r.Ok? ==> forall a :: 0 <= a < |Kept(lines)| ==> r.value.ram[a] == BinValue(Kept(lines)[a])
    ensures r.Ok? ==> forall a :: |Kept(lines)| <= a < RamSize ==> r.value.ram[a] == m.ram[a]
    ensures !AllBinary(Kept(lines)) ==> r.Err? && r.error.NotBinary? && FirstNonBinary(Kept(lines), r.error.text)
    ensures AllBinary(Kept(lines)) && Kept(lines) == [] ==> r == Err(NoProgram)
    ensures AllBinary(Kept(lines)) && |Kept(lines)| > RamSize ==> r == Err(RamOverflow(RamSize))
  {
    ParseLinesMeaning(lines);
    ParseLinesFirstError(lines);
    var program :- ParseLines(lines);
    if program == [] then Err(NoProgram)
    else if |program| > RamSize then Err(RamOverflow(RamSize))
    else Ok(m.(ram := Place(m.ram, program)))
  }
}

=== FILE: loader_properties.dfy ===
/**
 * Properties of the program loader: which lines contribute, what value a
 * line contributes, and the binary numeral round trip.
 */
module LoaderProperties {
  import opened Results
  import opened State
  import opened Loader

  /** Keeping lines distributes over concatenation of line sequences. */
  lemma {:induction false} KeptAppend(a: seq<string>, b: seq<string>)
    ensures Kept(a + b) == Kept(a) + Kept(b)
  {
    if a == [] {
      assert a + b == b;
    } else {
      var x := a + b;
      assert x[0] == a[0];
      assert x[1..] == a[1..] + b;
      KeptAppend(a[1..], b);
      calc {
        Kept(x);
        KeptLine(a[0]) + Kept(a[1..] + b);
        KeptLine(a[0]) + (Kept(a[1..]) + Kept(b));
        (KeptLine(a[0]) + Kept(a[1..])) + Kept(b);
        Kept(a) + Kept(b);
      }
    }
  }

  /** Parsing looks at the lines one at a time, front to back. */
  lemma ParseLinesCongruent(line: string, xs: seq<string>, ys: seq<string>)
    requires ParseLines(xs) == ParseLines(ys)
    ensures ParseLines([line] + xs) == ParseLines([line] + ys)
  {
    assert ([line] + xs)[1..] == xs;
    assert ([line] + ys)[1..] == ys;
  }

  /** A leading blank line is skipped. */
  lemma ParseLinesSkip(x: seq<string>)
    requires x != [] && Clean(x[0]) == []
    ensures ParseLines(x) == ParseLines(x[1..])
  {
  }

  /** A blank or comment-only line anywhere in the text changes nothing. */
  lemma {:induction false} BlankLineIgnored(a: seq<string>, line: string, b: seq<string>)
    requires Clean(line) == []
    ensures ParseLines(a + [line] + b) == ParseLines(a + b)
  {
    var x, y := a + [line] + b, a + b;
    if a == [] {
      assert x[0] == line && x[1..] == b == y;
      ParseLinesSkip(x);
    } else {
      assert x == [a[0]] + (a[1..] + [line] + b);
      assert y == [a[0]] + (a[1..] + b);
      BlankLineIgnored(a[1..], line, b);
      ParseLinesCongruent(a[0], a[1..] + [line] + b, a[1..] + b);
    }
  }

  /** Stripping leaves nothing exactly when the text is all whitespace. */
  lemma StripEmpty(s: string)
    ensures Strip(s) == [] <==> AllSpace(s)
  {
    StripSlice(s);
    if Strip(s) != [] {
      assert Strip(s)[0] == s[LeadingSpaces(s)];
    }
  }

  /** The text before the first `#` of a text that starts with `#`-free `s`. */
  lemma {:induction false} BeforeHashAppend(s: string, t: string)
    requires '#' !in s
    ensures BeforeHash(s + t) == s + BeforeHash(t)
  {
    if s == [] {
      assert s + t == t;
    } else {
      assert s[0] != '#';
      assert (s + t)[0] == s[0];
      assert (s + t)[1..] == s[1..] + t;
      BeforeHashAppend(s[1..], t);
    }
  }

  /** A line of whitespace followed by a comment is blank to the loader. */
  lemma CommentOnlyLine(ws: string, comment: string)
    requires AllSpace(ws)
    ensures Clean(ws + "#" + comment) == []
  {
    assert '#' !in ws by {
      assert !IsSpace('#');
    }
    BeforeHashAppend(ws, "#" + comment);
    assert ws + "#" + comment == ws + ("#" + comment);
    StripEmpty(ws);
  }

  /** Stripping removes exactly the whitespace padding around a core that
      neither starts nor ends with whitespace. */
  lemma StripPadded(pre: string, core: string, post: string)
    requires AllSpace(pre) && AllSpace(post)
    requires core != [] && !IsSpace(core[0]) && !IsSpace(core[|core| - 1])
    ensures Strip(pre + core + post) == core
  {
    var s := pre + core + post;
    var t := core + post;
    assert s == pre + t;
    assert forall i :: 0 <= i < |pre| ==> s[i] == pre[i];
    assert s[|pre|] == t[0];
    LeadingSpacesUnique(s, |pre|);
    assert s[|pre|..] == t;
    assert forall i :: |t| - |post| <= i < |t| ==> t[i] == post[i - |core|];
    assert t[|core| - 1] == core[|core| - 1];
    TrailingSpacesUnique(t, |post|);
    assert t[..|core|] == core;
  }

  /** A whitespace run followed by a non-space (or the end) is exactly what
      `LeadingSpaces` counts. */
  lemma LeadingSpacesUnique(s: string, k: nat)
    requires k <= |s| && forall i :: 0 <= i < k ==> IsSpace(s[i])
    requires k < |s| ==> !IsSpace(s[k])
    ensures LeadingSpaces(s) == k
  {
  }

  /** The same at the end of the text, for `TrailingSpaces`. */
  lemma TrailingSpacesUnique(s: string, k: nat)
    requires k <= |s| && forall i :: |s| - k <= i < |s| ==> IsSpace(s[i])
    requires k < |s| ==> !IsSpace(s[|s| - k - 1])
    ensures TrailingSpaces(s) == k
  {
  }

  /** Reading a numeral back and rendering it at its own width gives the
      numeral: together with `ToBits`, the two are inverse. */
  lemma {:induction false} BitsRoundTrip(s: string)
    requires IsBinary(s)
    ensures ToBits(BinValue(s), |s|) == s
  {
    if s != [] {
      var p := s[..|s| - 1];
      BitsRoundTrip(p);
      var v := BinValue(s);
      assert v / 2 == BinValue(p);
      assert s == p + [s[|s| - 1]];
    }
  }

  /** The loader reads a numeral followed by whitespace and a comment as
      the bare numeral. */
  lemma NumeralLineText(bits: string, ws: string, comment: string)
    requires bits != [] && IsBinary(bits) && AllSpace(ws)
    ensures Clean(bits + ws + "#" + comment) == bits
  {
    var padded := bits + ws;
    assert '#' !in padded by {
      assert !IsSpace('#');
      forall i | 0 <= i < |padded|
        ensures padded[i] != '#'
      {
        if i < |bits| {
          assert padded[i] == bits[i];
        } else {
          assert padded[i] == ws[i - |bits|];
        }
      }
    }
    BeforeHashAppend(padded, "#" + comment);
    assert BeforeHash("#" + comment) == [];
    assert bits + ws + "#" + comment == padded + ("#" + comment);
    assert BeforeHash(bits + ws + "#" + comment) == padded;
    assert bits[0] in "01" && bits[|bits| - 1] in "01";
    StripPadded([], bits, ws);
    assert [] + bits + ws == padded;
  }

  /** A line holding a `width`-digit numeral, optional trailing whitespace and
      a comment loads as exactly the value of the numeral. */
  lemma NumeralLine(v: nat, width: nat, ws: string, comment: string)
    requires 0 < width && v < Pow2(width) && AllSpace(ws)
    ensures ParseLines([ToBits(v, width) + ws + "#" + comment]) == Ok([v])
  {
    var bits := ToBits(v, width);
    NumeralLineText(bits, ws, comment);
    SingleLine(bits + ws + "#" + comment);
  }

  /** A text of one kept numeral line loads as that numeral's value. */
  lemma SingleLine(line: string)
    requires Clean(line) != [] && IsBinary(Clean(line))
    ensures ParseLines([line]) == Ok([BinValue(Clean(line))])
  {
    assert [line][0] == line && [line][1..] == [];
    assert ParseLines([]) == Ok([]);
    assert [BinValue(Clean(line))] + [] == [BinValue(Clean(line))];
  }

  /** The digits are read most significant first: the leading digit of an
      (n+1)-digit numeral weighs 2^n. */
  lemma {:induction false} LeadingDigit(d: char, s: string)
    requires (d == '0' || d == '1') && IsBinary(s)
    ensures IsBinary([d] + s)
    ensures BinValue([d] + s) == (if d == '1' then Pow2(|s|) else 0) + BinValue(s)
    decreases |s|
  {
    var all := [d] + s;
    assert all[0] == d;
    assert forall i :: 0 < i < |all| ==> all[i] == s[i - 1];
    if s != [] {
      var p := s[..|s| - 1];
      var c := s[|s| - 1];
      LeadingDigit(d, p);
      assert all[..|all| - 1] == [d] + p;
      assert all[|all| - 1] == c;
    }
  }

  /** Leading zeros do not change the value of a numeral. */
  lemma {:induction false} LeadingZeros(zeros: string, s: string)
    requires forall i :: 0 <= i < |zeros| ==> zeros[i] == '0'
    requires IsBinary(s)
    ensures IsBinary(zeros + s) && BinValue(zeros + s) == BinValue(s)
    decreases |zeros|
  {
    if zeros == [] {
      assert zeros + s == s;
    } else {
      var rest := zeros[1..];
      assert forall i :: 0 <= i < |rest| ==> rest[i] == zeros[i + 1];
      LeadingZeros(rest, s);
      LeadingDigit('0', rest + s);
      assert zeros == [zeros[0]] + rest;
      assert zeros + s == ['0'] + (rest + s);
    }
  }

  /** The numeral of the LDI opcode in a program file reads as LDI. */
  lemma LdiNumeral()
    ensures IsBinary("10000010") && BinValue("10000010") == LDI
  {
    assert BinValue("") == 0;
    assert "1"[..0] == "" && BinValue("1") == 1;
    assert "10"[..1] == "1" && BinValue("10") == 2;
    LeadingZeros("00000", "10");
    LeadingDigit('1', "00000" + "10");
    assert Pow2(7) == 128;
    assert ['1'] + ("00000" + "10") == "10000010";
  }
}

=== FILE: pylist.dfy ===
/**
 * Python list subscripting, which every LS-8 access with a data-dependent
 * index goes through: pc, the operands, and the stack pointer's value used
 * as an address. The fixed register index 7 and the loader's counting
 * address are always in range and are indexed directly.
 *
 * A subscript `xs[i]` on a list of length n accepts `-n <= i < n`: a
 * non-negative index counts from the front, a negative one from the back
 * (`xs[-1]` is the last cell), and anything else raises IndexError. Here
 * IndexError is `None`.
 */
module PyList {
  import opened Results

  /** The cell that subscript `i` denotes in a list of length `n`, if any. */
  function Resolve(n: nat, i: int): (r: Option<nat>)
    ensures r.Some? <==> -(n as int) <= i < n
    ensures r.Some? ==> r.value < n && r.value % n == i % n
    ensures 0 <= i < n ==> r == Some(i)
  {
    if 0 <= i < n then Some(i)
    else if -(n as int) <= i < 0 then Some(i + n)
    else None
  }

  /** Two subscripts that denote the same existing cell. */
  predicate Aliases(n: nat, i: int, j: int) {
    Resolve(n, i).Some? && Resolve(n, i) == Resolve(n, j)
  }

  /** `xs[i]` as an expression. */
  function Get(xs: seq<int>, i: int): (r: Option<int>)
    ensures r.Some? <==> -|xs| <= i < |xs|
    ensures 0 <= i < |xs| ==> r == Some(xs[i])
    ensures -|xs| <= i < 0 ==> r == Some(xs[|xs| + i])
  {
    match Resolve(|xs|, i)
    case Some(k) => Some(xs[k])
    case None => None
  }

  /** `xs[i] = v` as a statement: the updated list, or `None` for IndexError. */
  function Set(xs: seq<int>, i: int, v: int): (r: Option<seq<int>>)
    ensures r.Some? <==> -|xs| <= i < |xs|
    ensures r.Some? ==> |r.value| == |xs|
    ensures r.Some? ==> Get(r.value, i) == Some(v)
    ensures r.Some? ==> forall j :: !Aliases(|xs|, i, j) ==> Get(r.value, j) == Get(xs, j)
  {
    match Resolve(|xs|, i)
    case Some(k) => Some(xs[k := v])
    case None => None
  }
}

=== FILE: results.dfy ===
/** Failure-compatible wrappers shared by the machine and the loader. */
module Results {

  /** A value that may be absent. */
  datatype Option<+T> = None | Some(value: T)

  /** Either a value or the error that stopped the computation; usable with `:-`. */
  datatype Result<+T, +E> = Ok(value: T) | Err(error: E) {

    predicate IsFailure() {
      Err?
    }

    function PropagateFailure<U>(): Result<U, E>
      requires Err?
    {
      Err(error)
    }

    function Extract(): T
      requires Ok?
    {
      value
    }
  }
}

=== FILE: state.dfy ===
/**
 * The LS-8 machine state of ls8/cpu.py: 256 memory cells, 8 registers, the
 * program counter and the running flag, together with the bounds-checked
 * memory and register accessors and the opcode table.
 *
 * Cells and registers hold Python integers: nothing in the source truncates
 * to 8 bits, so they are unbounded `int`s here.
 */
module State {
  import opened Results
  import PyList

  const RamSize: nat := 256
  const RegisterCount: nat := 8
  /** The register that holds the stack pointer (`self.sp`). */
  const SP: nat := 7

  type Ram = s: seq<int> | |s| == RamSize witness seq(256, _ => 0)
  type Registers = s: seq<int> | |s| == RegisterCount witness seq(8, _ => 0)

  datatype Machine = Machine(ram: Ram, register: Registers, pc: int, running: bool)

  /** The IndexError a raw list subscript raises, and which list it was on. */
  datatype Fault = RamIndexError(address: int) | RegisterIndexError(index: int)

  /** The state a freshly constructed CPU starts in. The stack pointer register
      starts at 0 like every other register, not at the top of memory. */
  function Init(): (m: Machine)
    ensures forall a :: 0 <= a < RamSize ==> m.ram[a] == 0
    ensures forall i :: 0 <= i < RegisterCount ==> m.register[i] == 0
    ensures m.register[SP] == 0 && m.pc == 0 && !m.running
  {
    Machine(seq(RamSize, _ => 0), seq(RegisterCount, _ => 0), 0, false)
  }

  /** Subscripts that reach a memory cell or a register. */
  predicate InRam(address: int) {
    -(RamSize as int) <= address < RamSize
  }

  predicate IsRegister(index: int) {
    -(RegisterCount as int) <= index < RegisterCount
  }

  /** The memory cell a valid subscript denotes. */
  function Cell(address: int): (c: nat)
    requires InRam(address)
    ensures c < RamSize && c % RamSize == address % RamSize
  {
    PyList.Resolve(RamSize, address).value
  }

  /** The register a valid subscript denotes. */
  function Slot(index: int): (s: nat)
    requires IsRegister(index)
    ensures s < RegisterCount && s % RegisterCount == index % RegisterCount
  {
    PyList.Resolve(RegisterCount, index).value
  }

  /** `ram_read`: the value at `address`, with no effect on the machine. */
  function RamRead(ram: Ram, address: int): (r: Result<int, Fault>)
    ensures r.Ok? <==> InRam(address)
    ensures r.Ok? ==> r.value == ram[Cell(address)]
    ensures r.Err? ==> r.error == RamIndexError(address)
  {
    match PyList.Get(ram, address)
    case Some(v) => Ok(v)
    case None => Err(RamIndexError(address))
  }

  /** `ram_write`: the memory after storing `value` at `address`. A read of the
      same cell then gives `value` and every other cell reads as before. */
  function RamWrite(ram: Ram, address: int, value: int): (r: Result<Ram, Fault>)
    ensures r.Ok? <==> InRam(address)
    ensures r.Err? ==> r.error == RamIndexError(address)
    ensures r.Ok? ==> RamRead(r.value, address) == Ok(value)
    ensures r.Ok? ==> forall a :: !PyList.Aliases(RamSize, address, a) ==> RamRead(r.value, a) == RamRead(ram, a)
  {
    match PyList.Set(ram, address, value)
    case Some(s) => Ok(s)
    case None => Err(RamIndexError(address))
  }

  /** `self.register[index]` as an expression. */
  function RegRead(register: Registers, index: int): (r: Result<int, Fault>)
    ensures r.Ok? <==> IsRegister(index)
    ensures r.Ok? ==> r.value == register[Slot(index)]
    ensures r.Err? ==> r.error == RegisterIndexError(index)
  {
    match PyList.Get(register, index)
    case Some(v) => Ok(v)
    case None => Err(RegisterIndexError(index))
  }

  /** `self.register[index] = value`: only the denoted register changes. */
  function RegWrite(register: Registers, index: int, value: int): (r: Result<Registers, Fault>)
    ensures r.Ok? <==> IsRegister(index)
    ensures r.Err? ==> r.error == RegisterIndexError(index)
    ensures r.Ok? ==> RegRead(r.value, index) == Ok(value)
    ensures r.Ok? ==> forall i :: !PyList.Aliases(RegisterCount, index, i) ==> RegRead(r.value, i) == RegRead(register, i)
  {
    match PyList.Set(register, index, value)
    case Some(s) => Ok(s)
    case None => Err(RegisterIndexError(index))
  }

  /** The six instructions the CPU recognises. */
  datatype Op = Hlt | Ldi | Prn | Mul | Push | Pop

  const HLT: int := 0x01   // 0b00000001
  const LDI: int := 0x82   // 0b10000010
  const PRN: int := 0x47   // 0b01000111
  const MUL: int := 0xA2   // 0b10100010
  const PUSH: int := 0x45  // 0b01000101
  const POP: int := 0x46   // 0b01000110

  /** The byte that selects `op`. */
  function Opcode(op: Op): int {
    match op
    case Hlt => HLT
    case Ldi => LDI
    case Prn => PRN
    case Mul => MUL
    case Push => PUSH
    case Pop => POP
  }

  /** The instruction a fetched value selects; `None` for a value that matches
      none of the six comparisons of the dispatch chain. */
  function Decode(command: int): (r: Option<Op>)
    ensures r.Some? ==> Opcode(r.value) == command
    ensures r.None? <==> forall op: Op :: Opcode(op) != command
  {
    if command == HLT then Some(Hlt)
    else if command == LDI then Some(Ldi)
    else if command == PRN then Some(Prn)
    else if command == MUL then Some(Mul)
    else if command == PUSH then Some(Push)
    else if command == POP then Some(Pop)
    else None
  }

  /** Decoding inverts `Opcode`: the six opcode bytes are distinct. */
  lemma DecodeOpcode(op: Op)
    ensures Decode(Opcode(op)) == Some(op)
  {
  }
}
